=== FILE: README.md ===
# Recipe assistant: document normalisation and answer assembly

A Dafny model of the pure text handling in the recipe question-answering
assistant `app.py`. The assistant turns each dataset row into a document,
retrieves documents for a question, hands their texts to a language model as
context, and shows the model's reply with a list of source links. This model
covers the three deterministic steps around retrieval:

- **Document normalisation** (`recipe_to_doc`). Each field of a row is read
  with `value or ""` and stripped. The fields go into a fixed four-line text
  `Title: …`, `Ingredients: …`, `Steps: …`, `Description: …`. The metadata
  keeps the stripped title and source link.
- **Context assembly** (`format_docs`). The document texts are joined with a
  blank line between neighbours, in retrieval order.
- **Answer assembly** (the inline code after the model call). The reply is
  stripped. Every document with a non-empty link contributes the item
  `- [title](link)`, with `Kaynak` standing in for an empty title. The
  distinct items, sorted, are appended under `**Sources:**` when there is at
  least one.

Files and modules:

| file | module | contents |
|---|---|---|
| `wrappers.dfy` | `Wrappers` | `Option` for Python values that may be `None` |
| `pytext.dfy` | `PyText` | `str.isspace` and `str.strip`, with the facts that pin `strip` down |
| `join.dfy` | `JoinText` | `sep.join(parts)` and the layout of its result |
| `lexorder.dfy` | `LexOrder` | Python's string order and `sorted(set(xs))` |
| `recipe.dfy` | `Recipe` | rows, documents, `recipe_to_doc`, and a reader for the document text |
| `context.dfy` | `Context` | `format_docs` |
| `answer.dfy` | `Answer` | source items and the final answer |

Python strings are `seq<char>`, compared by code point as Python does. The
language model's reply is an input string `raw`. Retrieval is a single vector
store lookup whose ranking cannot be seen from this code, so the retrieved
documents are an input sequence `docs`.

## Model

| member | source | states |
|---|---|---|
| PyText.Strip | app.py:86-90 | `str.strip()`: the result has no whitespace at either end, and the input is the result with only whitespace around it |
| PyText.StripUnique | app.py:86-90 | whenever a string is a stripped text padded with whitespace, stripping returns exactly that text |
| PyText.StripIdempotent | app.py:86-90 | stripping an already stripped value changes nothing |
| PyText.StripIgnoresPadding | app.py:86-90 | extra whitespace around a value does not change what it strips to |
| PyText.StripEmptyIff | app.py:86-90 | a value strips to `""` exactly when it is all whitespace |
| Recipe.OrEmpty | app.py:86-90 | `value or ""`: a present value is kept as it is, and the result is `""` exactly when the field is absent or empty |
| Recipe.Field | app.py:86-90 | `(value or "").strip()` never fails, has no outer whitespace, differs from `value or ""` only by whitespace around it, and is `""` exactly when the field is absent, empty or blank |
| Recipe.Encode | app.py:92-95 | the document text starts with `Title: ` and the title, and its length is the four fields plus the fixed labels and three line breaks |
| Recipe.RecipeToDoc | app.py:84-96 | total on every row; the text is the labelled four-line text of the stripped name, ingredients, steps and description, in that order; the metadata title and source link are the stripped name and link |
| Recipe.DecodeContent | app.py:92-95 | any text it reads as four fields is exactly the fixed-order labelled text of those fields, with no line break in title, ingredients or steps |
| Recipe.DecodeEncode | app.py:92-95 | reading back the labelled text of line-free fields gives those fields, so the text format loses nothing |
| Recipe.RecipeToDocRoundTrip | app.py:84-96 | a document's text reads back as title, ingredients, steps and description in that order, with the metadata title as the title line and a description line even when it is empty |
| Recipe.RecipeToDocIgnoresPadding | app.py:86-90 | whitespace added around the fields of a row, chosen separately for each field and each side, does not change its document |
| Recipe.RecipeToDocIdempotent | app.py:86-96 | feeding the already normalised fields back in gives the same document |
| JoinText.Join | app.py:100 | `sep.join(parts)`: no parts give `""`, one part is returned unchanged, and the length is all parts plus `n - 1` separators |
| JoinText.JoinLayout | app.py:99-100 | in a join each part sits at its offset, one separator follows every part but the last, and the length is all parts plus `n - 1` separators |
| Context.FormatDocs | app.py:99-100 | no documents give `""`; one gives its text unchanged; otherwise every text sits in order at its offset with one blank-line separator between neighbours |
| Context.FormatDocsAppend | app.py:99-100 | one more document appends a separator and its text and leaves the earlier context as it was |
| LexOrder.LexLess | app.py:192 | Python's `<` on strings is irreflexive and puts every proper prefix before the longer string |
| LexOrder.FirstDiff | app.py:192 | after a common prefix, the first differing character decides the order of two strings, whatever follows |
| LexOrder.LexTransitive | app.py:192 | Python's string order is transitive |
| LexOrder.LexTotal | app.py:192 | any two different strings are ordered one way or the other |
| LexOrder.SortedSet | app.py:192 | `sorted(set(xs))` is strictly increasing and holds exactly the elements of `xs` |
| LexOrder.IncreasingUnique | app.py:192 | only one strictly increasing list has a given element set, so `SortedSet` is the list Python builds |
| Answer.DisplayTitle | app.py:187 | the shown title is never empty; it is the metadata title when that is non-empty and `Kaynak` when it is empty |
| Answer.MarkdownItem | app.py:189 | the item is `- [`, the title, `](`, the link and `)`, in that order and nothing else |
| Answer.SourceLine | app.py:186-189 | a document contributes a list item exactly when its link is non-empty, and the item is `- [title](link)` |
| Answer.SourceLines | app.py:184-189 | the gathered items are exactly the items some document contributes, and there are no more items than documents |
| Answer.CollectSources | app.py:184-189 | the gathering loop yields, in document order, exactly the items the documents contribute |
| Answer.AssembleAnswer | app.py:181-192 | the answer starts with the stripped reply, and equals it exactly when no document has a link |
| Answer.AnswerWithSources | app.py:191-192 | with at least one item, the answer is the stripped reply, the `**Sources:**` header and the sorted, duplicate-free items joined by line breaks |
| Answer.AnswerDependsOnSourceSet | app.py:184-192 | reordering or repeating documents leaves the answer unchanged when the item set is unchanged |
| Answer.AnswerIgnoresReplyPadding | app.py:181 | whitespace around the model's reply never reaches the answer |
| Answer.RecipeSourceLine | app.py:184-189 | a row's document contributes an item exactly when the row has a non-blank link; the item shows the stripped name, or `Kaynak` for a blank name, and the stripped link |

## Left out

- `safe_load_recipe_dataset` (app.py:20-65): network downloads, file-format dispatch and retries on exceptions are I/O.
- `build_retriever` (app.py:103-121): embeddings and the vector index are external services and libraries. Retrieval is one vector-store lookup (app.py:117-120, 177), and its ranking cannot be seen from this code, so the retrieved documents are an input.
- `build_llm_and_prompt` and the model call (app.py:124-144, 181): the reply of the external language model is an input string.
- Page setup, secrets, the sidebar slider for `k`, session state and chat rendering (app.py:70-78, 150-177, 194-195): user interface.
- The `st.cache_resource` memoisation: a caching side effect with no effect on results.
- Truthy non-string field values, such as a non-empty list: `value or ""` keeps them and `.strip()` then raises `AttributeError` (app.py:86-90). A falsy non-string value (an empty list, `0`, `False`) gives `""` exactly as an absent field does, which the model covers with `None`. Only the raising case is left out.
- Metadata is a two-field datatype, not a dictionary. Every indexed document is built by `recipe_to_doc` (app.py:110), so both keys are always present. The missing-key path of `metadata.get` is therefore not modelled.
- Recipe.RecipeToDocRoundTrip: it requires title, ingredients and steps to be free of line breaks. A line break inside one of them makes the text ambiguous to read back.
- Context.FormatDocs: the "n - 1 separators" property is stated as the position of each text and separator, not as a count of `"\n\n"` occurrences. Occurrences can overlap when a text begins or ends with a line break.
- Lone surrogate code points (U+D800 to U+DFFF): a Python `str` can hold them, but a Dafny `char` cannot. Nothing in the modelled code depends on them.

=== FILE: answer.dfy ===
/**
 The answer shown to the user: the language model's reply, stripped, with a
 sorted, duplicate-free markdown list of the retrieved documents' source
 links appended when there is at least one.
 */
module Answer {
  import opened Wrappers
  import opened PyText
  import opened JoinText
  import opened LexOrder
  import opened Recipe

  /** The title shown for a document whose title is empty. */
  const DefaultTitle: string := "Kaynak"

  /** What goes between the reply and the list of sources. */
  const SourcesHeader: string := "\n\n**Sources:**\n"

  /** The title shown for a source: the metadata title, or `Kaynak` when it
      is empty. */
  function DisplayTitle(d: Document): (t: string)
    ensures t != ""
    ensures d.metadata.title != "" ==> t == d.metadata.title
    ensures d.metadata.title == "" ==> t == DefaultTitle
  {
    if d.metadata.title == "" then DefaultTitle else d.metadata.title
  }

  /** The markdown list item for one source: `- [`, the title, `](`, the
      link and `)`, each piece at its place. */
  function MarkdownItem(title: string, link: string): (r: string)
    ensures |r| == |title| + |link| + 6
    ensures r[..3] == "- [" && r[3..3 + |title|] == title
    ensures r[3 + |title|..5 + |title|] == "](" && r[5 + |title|..|r| - 1] == link
    ensures r[|r| - 1] == ')'
  {
    "- [" + title + "](" + link + ")"
  }

  /** The list item a document contributes: one exactly when its source link
      is non-empty, and none otherwise. */
  function SourceLine(d: Document): (r: Option<string>)
    ensures r.Some? <==> d.metadata.sourceLink != ""
    ensures r.Some? ==> r.value == MarkdownItem(DisplayTitle(d), d.metadata.sourceLink)
  {
    if d.metadata.sourceLink != "" then Some(MarkdownItem(DisplayTitle(d), d.metadata.sourceLink))
    else None
  }

  /** Every list item some document contributes. */
  ghost function SourceSet(docs: seq<Document>): set<string> {
    set i | 0 <= i < |docs| && SourceLine(docs[i]).Some? :: SourceLine(docs[i]).value
  }

  /** The list items in document order, duplicates kept: exactly the items
      some document contributes, at most one per document. */
  function SourceLines(docs: seq<Document>): (r: seq<string>)
    ensures |r| <= |docs|
    ensures Elems(r) == SourceSet(docs)
    decreases |docs|
  {
    if |docs| == 0 then []
    else
      var front := docs[..|docs| - 1];
      var d := docs[|docs| - 1];
      var r0 := SourceLines(front);
      assert docs == front + [d];
      SourceSetSnoc(front, d);
      match SourceLine(d)
      case None => r0
      case Some(line) =>
        ElemsSnoc(r0, line);
        r0 + [line]
  }

  lemma SourceSetSnoc(front: seq<Document>, d: Document)
    ensures SourceSet(front + [d]) ==
      SourceSet(front) + (if SourceLine(d).Some? then {SourceLine(d).value} else {})
  {
    var all := front + [d];
    forall x | x in SourceSet(all)
      ensures x in SourceSet(front) || (SourceLine(d).Some? && x == SourceLine(d).value)
    {
      var i :| 0 <= i < |all| && SourceLine(all[i]).Some? && SourceLine(all[i]).value == x;
      if i < |front| {
        assert all[i] == front[i];
      }
    }
    forall x | x in SourceSet(front)
      ensures x in SourceSet(all)
    {
      var i :| 0 <= i < |front| && SourceLine(front[i]).Some? && SourceLine(front[i]).value == x;
      assert all[i] == front[i];
    }
    if SourceLine(d).Some? {
      assert all[|front|] == d;
    }
  }

  lemma ElemsSnoc(s: seq<string>, x: string)
    ensures Elems(s + [x]) == Elems(s) + {x}
  {
    assert forall y :: y in s + [x] <==> y in s || y == x;
  }

  /** The loop that gathers the list items (app.py keeps a list and appends
      to it once per document that has a link). */
  method CollectSources(docs: seq<Document>) returns (sources: seq<string>)
    ensures sources == SourceLines(docs)
    ensures Elems(sources) == SourceSet(docs)
  {
    sources := [];
    var i := 0;
    while i < |docs|
      invariant 0 <= i <= |docs|
      invariant sources == SourceLines(docs[..i])
    {
      var d := docs[i];
      var line := SourceLine(d);
      assert docs[..i + 1][..i] == docs[..i];
      if line.Some? {
        sources := sources + [line.value];
      }
      i := i + 1;
    }
    assert docs[..|docs|] == docs;
  }

  /** The final answer for the model's raw reply and the retrieved documents:
      it starts with the stripped reply, and it is exactly the stripped reply
      when no document has a source link. */
  function AssembleAnswer(raw: string, docs: seq<Document>): (r: string)
    ensures Strip(raw) <= r
    ensures r == Strip(raw) <==> SourceSet(docs) == {}
  {
    var answer := Strip(raw);
    var sources := SourceLines(docs);
    ElemsEmpty(sources);
    if |sources| > 0 then answer + SourcesHeader + Join("\n", SortedSet(sources))
    else answer
  }

  /** The list block is the sorted, duplicate-free set of list items: for any
      strictly increasing sequence of exactly the items the documents
      contribute, the answer is the stripped reply, the header and that
      sequence joined by line breaks. */
  lemma AnswerWithSources(raw: string, docs: seq<Document>, lines: seq<string>)
    requires SourceSet(docs) != {}
    requires StrictlyIncreasing(lines) && Elems(lines) == SourceSet(docs)
    ensures AssembleAnswer(raw, docs) == Strip(raw) + SourcesHeader + Join("\n", lines)
  {
    var sources := SourceLines(docs);
    ElemsEmpty(sources);
    IncreasingUnique(SortedSet(sources), lines);
  }

  /** Only the set of list items matters: reordering the documents, or
      repeating one, does not change the answer. */
  lemma AnswerDependsOnSourceSet(raw: string, docs1: seq<Document>, docs2: seq<Document>)
    requires SourceSet(docs1) == SourceSet(docs2)
    ensures AssembleAnswer(raw, docs1) == AssembleAnswer(raw, docs2)
  {
    ElemsEmpty(SourceLines(docs1));
    ElemsEmpty(SourceLines(docs2));
    IncreasingUnique(SortedSet(SourceLines(docs1)), SortedSet(SourceLines(docs2)));
  }

  /** Whitespace around the model's reply never reaches the answer. */
  lemma AnswerIgnoresReplyPadding(w1: string, raw: string, w2: string, docs: seq<Document>)
    requires AllWhitespace(w1) && AllWhitespace(w2)
    ensures AssembleAnswer(w1 + raw + w2, docs) == AssembleAnswer(raw, docs)
  {
    StripIgnoresPadding(w1, raw, w2);
  }

  /** A recipe's document contributes a list item exactly when the record
      has a non-blank link; the item shows the stripped name, or "Kaynak"
      when the name is absent or blank, and the stripped link. */
  lemma RecipeSourceLine(rec: Record)
    ensures SourceLine(RecipeToDoc(rec)).Some? <==> rec.link.Some? && !AllWhitespace(rec.link.value)
    ensures SourceLine(RecipeToDoc(rec)).Some? ==>
      SourceLine(RecipeToDoc(rec)).value ==
        MarkdownItem(if rec.name.None? || AllWhitespace(rec.name.value) then DefaultTitle else Field(rec.name),
                     Field(rec.link))
  {
    var blank := rec.name.None? || AllWhitespace(rec.name.value);
    var d := RecipeToDoc(rec);
    var name, link := Field(rec.name), Field(rec.link);
    assert d.metadata.title == name && d.metadata.sourceLink == link;
    assert name == "" <==> blank;
    assert link == "" <==> rec.link.None? || AllWhitespace(rec.link.value);
    SourceLineOf(d, blank);
  }

  /** `SourceLine` spelled out for a document whose title is empty exactly
      when `blankTitle` holds. */
  lemma SourceLineOf(d: Document, blankTitle: bool)
    requires d.metadata.title == "" <==> blankTitle
    ensures SourceLine(d) ==
      if d.metadata.sourceLink == "" then None
      else Some(MarkdownItem(if blankTitle then DefaultTitle else d.metadata.title, d.metadata.sourceLink))
  {
  }
}

=== FILE: context.dfy ===
/**
 `format_docs`: the context block handed to the language model, made of the
 retrieved documents' texts in retrieval order.
 */
module Context {
  import opened Recipe
  import opened JoinText

  /** The blank line that separates two documents in the context block. */
  const DocSeparator: string := "\n\n"

  function Contents(docs: seq<Document>): (r: seq<string>)
    ensures |r| == |docs|
    ensures forall i :: 0 <= i < |docs| ==> r[i] == docs[i].content
  {
    seq(|docs|, i requires 0 <= i < |docs| => docs[i].content)
  }

  /** `format_docs`: no documents give the empty string, one document gives
      its text unchanged, and in general document `i`'s text sits at its
      offset followed (unless it is last) by one blank-line separator, for a
      total of all text lengths plus 2 * (n - 1) characters. */
  function FormatDocs(docs: seq<Document>): (r: string)
    ensures |docs| == 0 ==> r == ""
    ensures |docs| == 1 ==> r == docs[0].content
    ensures |docs| > 0 ==> |r| + |DocSeparator| == Offset(DocSeparator, Contents(docs), |docs|)
    ensures forall i :: 0 <= i < |docs| ==> PartAt(r, DocSeparator, Contents(docs), i)
  {
    var parts := Contents(docs);
    if |parts| == 0 then ""
    else
      JoinLayout(DocSeparator, parts);
      Join(DocSeparator, parts)
  }

  /** Retrieval order is kept: one more document adds a separator and its
      text at the end and leaves the earlier context untouched. */
  lemma FormatDocsAppend(docs: seq<Document>, d: Document)
    requires |docs| > 0
    ensures FormatDocs(docs + [d]) == FormatDocs(docs) + DocSeparator + d.content
  {
    var all := docs + [d];
    assert Contents(all)[..|docs|] == Contents(docs);
  }
}

=== FILE: join.dfy ===
/**
 Python's `sep.join(parts)`: the parts in order with one copy of `sep`
 between each neighbouring pair.
 */
module JoinText {

  function Join(sep: string, parts: seq<string>): (r: string)
    ensures |parts| == 0 ==> r == ""
    ensures |parts| == 1 ==> r == parts[0]
    ensures |parts| > 0 ==> |r| + |sep| == Offset(sep, parts, |parts|)
    decreases |parts|
  {
    if |parts| == 0 then ""
    else if |parts| == 1 then parts[0]
    else
      var n := |parts|;
      OffsetOfPrefix(sep, parts, n - 1, n - 1);
      Join(sep, parts[..n - 1]) + sep + parts[n - 1]
  }

  /** Where part `i` starts in the joined string: the lengths of the parts
      before it, each followed by one separator. */
  function Offset(sep: string, parts: seq<string>, i: nat): nat
    requires i <= |parts|
  {
    if i == 0 then 0 else Offset(sep, parts, i - 1) + |parts[i - 1]| + |sep|
  }

  /** Part `i` sits at its offset in `joined`, and (unless it is the last
      part) is followed by exactly one separator. */
  predicate PartAt(joined: string, sep: string, parts: seq<string>, i: nat)
    requires i < |parts|
  {
    var o := Offset(sep, parts, i);
    && o + |parts[i]| <= |joined|
    && joined[o..o + |parts[i]|] == parts[i]
    && (i + 1 < |parts| ==>
          o + |parts[i]| + |sep| <= |joined| &&
          joined[o + |parts[i]|..o + |parts[i]| + |sep|] == sep)
  }

  lemma {:induction false} OffsetOfPrefix(sep: string, parts: seq<string>, m: nat, i: nat)
    requires i <= m <= |parts|
    ensures Offset(sep, parts[..m], i) == Offset(sep, parts, i)
    decreases i
  {
    if i > 0 {
      OffsetOfPrefix(sep, parts, m, i - 1);
      assert parts[..m][i - 1] == parts[i - 1];
    }
  }

  /** The layout of a join: every part at its offset with one separator after
      each but the last, and a total length of all parts plus |parts| - 1
      separators. Together these determine the joined string completely. */
  lemma {:induction false} JoinLayout(sep: string, parts: seq<string>)
    requires |parts| > 0
    ensures |Join(sep, parts)| + |sep| == Offset(sep, parts, |parts|)
    ensures forall i :: 0 <= i < |parts| ==> PartAt(Join(sep, parts), sep, parts, i)
    decreases |parts|
  {
    var n := |parts|;
    var j := Join(sep, parts);
    if n == 1 {
      assert PartAt(j, sep, parts, 0);
    } else {
      var front := parts[..n - 1];
      var jf := Join(sep, front);
      JoinLayout(sep, front);
      OffsetOfPrefix(sep, parts, n - 1, n - 1);
      assert j == jf + sep + parts[n - 1];
      forall i | 0 <= i < n
        ensures PartAt(j, sep, parts, i)
      {
        OffsetOfPrefix(sep, parts, n - 1, i);
        if i < n - 1 {
          PartAtFront(sep, parts, i);
        } else {
          assert j[|jf| + |sep|..|jf| + |sep| + |parts[i]|] == parts[n - 1];
        }
      }
    }
  }

  /** A part of the front of the list keeps its place when one more part is
      appended. */
  lemma PartAtFront(sep: string, parts: seq<string>, i: nat)
    requires |parts| > 1 && i < |parts| - 1
    requires |Join(sep, parts[..|parts| - 1])| + |sep| == Offset(sep, parts[..|parts| - 1], |parts| - 1)
    requires PartAt(Join(sep, parts[..|parts| - 1]), sep, parts[..|parts| - 1], i)
    ensures PartAt(Join(sep, parts), sep, parts, i)
  {
    var n := |parts|;
    var front := parts[..n - 1];
    var jf := Join(sep, front);
    var tail := sep + parts[n - 1];
    assert Join(sep, parts) == jf + tail;
    OffsetOfPrefix(sep, parts, n - 1, i);
    OffsetOfPrefix(sep, parts, n - 1, n - 1);
    var o := Offset(sep, parts, i);
    var e := o + |parts[i]|;
    assert front[i] == parts[i];
    SliceOfFront(jf, tail, o, e);
    if i + 1 < n - 1 {
      SliceOfFront(jf, tail, e, e + |sep|);
    } else {
      assert e == |jf|;
      SliceAfterFront(jf, sep, parts[n - 1]);
    }
  }

  lemma SliceOfFront(a: string, b: string, lo: nat, hi: nat)
    requires lo <= hi <= |a|
    ensures (a + b)[lo..hi] == a[lo..hi]
  {
  }

  lemma SliceAfterFront(a: string, sep: string, b: string)
    ensures (a + (sep + b))[|a|..|a| + |sep|] == sep
  {
  }
}

=== FILE: lexorder.dfy ===
/**
 Python's ordering of `str` values (lexicographic on code points) and
 `sorted(set(xs))` over it.
 */
module LexOrder {

  /** `a < b` on Python strings: a proper prefix is smaller; otherwise the
      first differing character decides. */
  predicate LexLess(a: string, b: string): (r: bool)
    ensures r ==> a != b
    ensures a < b ==> r
    decreases |a|
  {
    if |a| == 0 then |b| > 0
    else if |b| == 0 then false
    else if a[0] != b[0] then a[0] < b[0]
    else LexLess(a[1..], b[1..])
  }

  /** After a common prefix, the first differing character decides,
      whatever follows it. */
  lemma {:induction false} FirstDiff(p: string, x: char, y: char, s: string, t: string)
    requires x != y
    ensures LexLess(p + [x] + s, p + [y] + t) <==> x < y
    decreases |p|
  {
    var a, b := p + [x] + s, p + [y] + t;
    if |p| == 0 {
      assert a[0] == x && b[0] == y;
    } else {
      FirstDiff(p[1..], x, y, s, t);
      assert a[0] == b[0] == p[0];
      assert a[1..] == p[1..] + [x] + s && b[1..] == p[1..] + [y] + t;
    }
  }

  lemma {:induction false} LexTransitive(a: string, b: string, c: string)
    requires LexLess(a, b) && LexLess(b, c)
    ensures LexLess(a, c)
    decreases |a|
  {
    if |a| > 0 && a[0] == b[0] && b[0] == c[0] {
      LexTransitive(a[1..], b[1..], c[1..]);
    }
  }

  lemma {:induction false} LexTotal(a: string, b: string)
    ensures a == b || LexLess(a, b) || LexLess(b, a)
    decreases |a|
  {
    if |a| > 0 && |b| > 0 && a[0] == b[0] {
      LexTotal(a[1..], b[1..]);
      if a[1..] == b[1..] {
        assert a == [a[0]] + a[1..] && b == [b[0]] + b[1..];
      }
    }
  }

  lemma LexAsymmetric(a: string, b: string)
    requires LexLess(a, b)
    ensures !LexLess(b, a)
  {
    if LexLess(b, a) {
      LexTransitive(a, b, a);
    }
  }

  predicate StrictlyIncreasing(s: seq<string>) {
    forall i, j :: 0 <= i < j < |s| ==> LexLess(s[i], s[j])
  }

  function Elems(s: seq<string>): set<string> {
    set x | x in s
  }

  /** Adds `x` to a strictly increasing sequence, keeping it strictly
      increasing; an element already present is not added twice. */
  function Insert(x: string, s: seq<string>): (r: seq<string>)
    requires StrictlyIncreasing(s)
    ensures StrictlyIncreasing(r)
    ensures Elems(r) == Elems(s) + {x}
    decreases |s|
  {
    if |s| == 0 then [x]
    else if x == s[0] then s
    else if LexLess(x, s[0]) then
      InsertFront(x, s);
      [x] + s
    else
      var rest := Insert(x, s[1..]);
      InsertAfter(x, s, rest);
      [s[0]] + rest
  }

  lemma InsertFront(x: string, s: seq<string>)
    requires StrictlyIncreasing(s) && |s| > 0 && LexLess(x, s[0])
    ensures StrictlyIncreasing([x] + s)
    ensures Elems([x] + s) == Elems(s) + {x}
  {
    var r := [x] + s;
    forall i, j | 0 <= i < j < |r|
      ensures LexLess(r[i], r[j])
    {
      if i == 0 && j > 1 {
        LexTransitive(x, s[0], s[j - 1]);
      }
    }
  }

  lemma InsertAfter(x: string, s: seq<string>, rest: seq<string>)
    requires StrictlyIncreasing(s) && |s| > 0 && x != s[0] && !LexLess(x, s[0])
    requires StrictlyIncreasing(rest) && Elems(rest) == Elems(s[1..]) + {x}
    ensures StrictlyIncreasing([s[0]] + rest)
    ensures Elems([s[0]] + rest) == Elems(s) + {x}
  {
    LexTotal(x, s[0]);
    var r := [s[0]] + rest;
    forall i, j | 0 <= i < j < |r|
      ensures LexLess(r[i], r[j])
    {
      if i == 0 {
        assert r[j] in Elems(rest);
        if r[j] != x {
          var k :| 1 <= k < |s| && s[k] == r[j];
        }
      }
    }
    ConsElems(s[0], rest);
    ConsElems(s[0], s[1..]);
    assert s == [s[0]] + s[1..];
  }

  lemma ElemsEmpty(s: seq<string>)
    ensures Elems(s) == {} <==> |s| == 0
  {
    if |s| > 0 {
      assert s[0] in Elems(s);
    }
  }

  lemma ConsElems(h: string, t: seq<string>)
    ensures Elems([h] + t) == {h} + Elems(t)
  {
    assert forall x :: x in [h] + t <==> x == h || x in t;
  }

  /** `sorted(set(xs))`: the distinct elements of `xs` in increasing order. */
  function SortedSet(xs: seq<string>): (r: seq<string>)
    ensures StrictlyIncreasing(r)
    ensures Elems(r) == Elems(xs)
    decreases |xs|
  {
    if |xs| == 0 then []
    else
      var front := xs[..|xs| - 1];
      assert xs == front + [xs[|xs| - 1]];
      Insert(xs[|xs| - 1], SortedSet(front))
  }

  /** There is only one strictly increasing sequence with a given element
      set, so `SortedSet` is the one Python's `sorted(set(xs))` produces. */
  lemma {:induction false} IncreasingUnique(a: seq<string>, b: seq<string>)
    requires StrictlyIncreasing(a) && StrictlyIncreasing(b)
    requires Elems(a) == Elems(b)
    ensures a == b
    decreases |a|
  {
    ElemsEmpty(a);
    ElemsEmpty(b);
    if |a| > 0 {
      assert a[0] in Elems(b) && |b| > 0;
      assert b[0] in Elems(a);
      var m :| 0 <= m < |a| && a[m] == b[0];
      var k :| 0 <= k < |b| && b[k] == a[0];
      if m > 0 && k > 0 {
        LexAsymmetric(a[0], a[m]);
      }
      assert a[0] == b[0];
      TailElems(a);
      TailElems(b);
      IncreasingUnique(a[1..], b[1..]);
      assert a == [a[0]] + a[1..] && b == [b[0]] + b[1..];
    }
  }

  lemma TailElems(s: seq<string>)
    requires |s| > 0
    requires forall i, j :: 0 <= i < j < |s| ==> s[i] != s[j]
    ensures Elems(s[1..]) == Elems(s) - {s[0]}
  {
    assert s == [s[0]] + s[1..];
  }
}

=== FILE: pytext.dfy ===
/**
 Python's `str.strip()` with no argument: removes every leading and trailing
 character for which `str.isspace()` holds, and nothing else.
 */
module PyText {

  /** The characters Python's `str.isspace()` accepts (Unicode White_Space
      plus the four ASCII information separators U+001C..U+001F). */
  const WhitespaceChars: set<char> := {
    '\U{0009}', '\U{000A}', '\U{000B}', '\U{000C}', '\U{000D}',
    '\U{001C}', '\U{001D}', '\U{001E}', '\U{001F}', '\U{0020}',
    '\U{0085}', '\U{00A0}', '\U{1680}',
    '\U{2000}', '\U{2001}', '\U{2002}', '\U{2003}', '\U{2004}', '\U{2005}',
    '\U{2006}', '\U{2007}', '\U{2008}', '\U{2009}', '\U{200A}',
    '\U{2028}', '\U{2029}', '\U{202F}', '\U{205F}', '\U{3000}'
  }

  predicate IsWhitespace(c: char) {
    c in WhitespaceChars
  }

  /** Every character of `s` at an index in [lo, hi) is whitespace. */
  predicate WhitespaceBetween(s: string, lo: int, hi: int)
    requires 0 <= lo && hi <= |s|
  {
    forall k :: lo <= k < hi ==> IsWhitespace(s[k])
  }

  predicate AllWhitespace(s: string) {
    WhitespaceBetween(s, 0, |s|)
  }

  /** Neither the first nor the last character is whitespace. */
  predicate IsStripped(s: string) {
    |s| == 0 || (!IsWhitespace(s[0]) && !IsWhitespace(s[|s| - 1]))
  }

  /** `s` is `t` surrounded by whitespace, with `t` starting at index `i`. */
  predicate PaddedBy(s: string, t: string, i: int) {
    && 0 <= i && i + |t| <= |s|
    && (forall k :: 0 <= k < |t| ==> s[i + k] == t[k])
    && WhitespaceBetween(s, 0, i)
    && WhitespaceBetween(s, i + |t|, |s|)
  }

  /** Drops the leading whitespace: the result is the longest suffix that
      does not start with whitespace, and everything dropped is whitespace. */
  function TrimStart(s: string): (r: string)
    ensures |r| <= |s| && r == s[|s| - |r|..]
    ensures WhitespaceBetween(s, 0, |s| - |r|)
    ensures |r| == 0 || !IsWhitespace(r[0])
    decreases |s|
  {
    if |s| > 0 && IsWhitespace(s[0]) then
      var r := TrimStart(s[1..]);
      assert forall k :: 1 <= k < |s| - |r| ==> s[k] == s[1..][k - 1];
      r
    else
      s
  }

  /** Drops the trailing whitespace: the result is the longest prefix that
      does not end with whitespace, and everything dropped is whitespace. */
  function TrimEnd(s: string): (r: string)
    ensures |r| <= |s| && r == s[..|r|]
    ensures WhitespaceBetween(s, |r|, |s|)
    ensures |r| == 0 || !IsWhitespace(r[|r| - 1])
    decreases |s|
  {
    if |s| > 0 && IsWhitespace(s[|s| - 1]) then
      var r := TrimEnd(s[..|s| - 1]);
      assert forall k :: |r| <= k < |s| - 1 ==> s[k] == s[..|s| - 1][k];
      r
    else
      s
  }

  /** `str.strip()`: the input with its surrounding whitespace removed. */
  function Strip(s: string): (r: string)
    ensures IsStripped(r)
    ensures exists i :: PaddedBy(s, r, i)
  {
    var t := TrimStart(s);
    var r := TrimEnd(t);
    TrimsPad(s, t, r);
    r
  }

  lemma TrimsPad(s: string, t: string, r: string)
    requires |t| <= |s| && t == s[|s| - |t|..] && WhitespaceBetween(s, 0, |s| - |t|)
    requires |r| <= |t| && r == t[..|r|] && WhitespaceBetween(t, |r|, |t|)
    ensures PaddedBy(s, r, |s| - |t|)
  {
    var i := |s| - |t|;
    forall k | 0 <= k < |r|
      ensures s[i + k] == r[k]
    {
      assert r[k] == t[k] == s[i + k];
    }
    forall k | i + |r| <= k < |s|
      ensures IsWhitespace(s[k])
    {
      assert s[k] == t[k - i];
    }
  }

  /** Stripping is determined by the padding: whenever `s` is a stripped `t`
      surrounded by whitespace, `Strip(s)` is exactly `t`. */
  lemma StripUnique(s: string, t: string, i: int)
    requires PaddedBy(s, t, i) && IsStripped(t)
    ensures Strip(s) == t
  {
    var r := Strip(s);
    var j :| PaddedBy(s, r, j);
    PaddingUnique(s, t, i, r, j);
  }

  /** Two stripped strings that both pad out to `s` are the same string. */
  lemma PaddingUnique(s: string, t: string, i: int, r: string, j: int)
    requires PaddedBy(s, t, i) && IsStripped(t)
    requires PaddedBy(s, r, j) && IsStripped(r)
    ensures t == r
  {
    if |t| > 0 && |r| > 0 {
      // The first non-whitespace character of s sits at both i and j ...
      assert s[i + 0] == t[0] && s[j + 0] == r[0];
      assert i == j;
      // ... and the last one at both i + |t| - 1 and j + |r| - 1.
      assert s[i + (|t| - 1)] == t[|t| - 1] && s[j + (|r| - 1)] == r[|r| - 1];
      assert |t| == |r|;
    }
  }

  /** Stripping twice is stripping once. */
  lemma StripIdempotent(s: string)
    ensures Strip(Strip(s)) == Strip(s)
  {
    var r := Strip(s);
    assert PaddedBy(r, r, 0);
    StripUnique(r, r, 0);
  }

  /** Whitespace added around a string does not change what it strips to. */
  lemma StripIgnoresPadding(w1: string, t: string, w2: string)
    requires AllWhitespace(w1) && AllWhitespace(w2)
    ensures Strip(w1 + t + w2) == Strip(t)
  {
    var r := Strip(t);
    var i :| PaddedBy(t, r, i);
    StripOfPadded(w1, t, w2, r, i);
  }

  lemma StripOfPadded(w1: string, t: string, w2: string, r: string, i: int)
    requires AllWhitespace(w1) && AllWhitespace(w2)
    requires PaddedBy(t, r, i) && IsStripped(r)
    ensures Strip(w1 + t + w2) == r
  {
    PadMore(w1, t, w2, r, i);
    StripUnique(w1 + t + w2, r, |w1| + i);
  }

  lemma PadMore(w1: string, t: string, w2: string, r: string, i: int)
    requires AllWhitespace(w1) && AllWhitespace(w2) && PaddedBy(t, r, i)
    ensures PaddedBy(w1 + t + w2, r, |w1| + i)
  {
    var s := w1 + t + w2;
    var n := |w1|;
    forall k | 0 <= k < |r|
      ensures s[n + i + k] == r[k]
    {
      assert s[n + i + k] == t[i + k];
    }
    forall k | 0 <= k < n + i
      ensures IsWhitespace(s[k])
    {
      if k < n {
        assert s[k] == w1[k];
      } else {
        assert s[k] == t[k - n];
      }
    }
    forall k | n + i + |r| <= k < |s|
      ensures IsWhitespace(s[k])
    {
      if k < n + |t| {
        assert s[k] == t[k - n];
      } else {
        assert s[k] == w2[k - n - |t|];
      }
    }
  }

  /** A string strips to the empty string exactly when it is all whitespace. */
  lemma StripEmptyIff(s: string)
    ensures Strip(s) == [] <==> AllWhitespace(s)
  {
    if AllWhitespace(s) {
      assert PaddedBy(s, [], 0);
      StripUnique(s, [], 0);
    }
  }
}

=== FILE: recipe.dfy ===
/**
 `recipe_to_doc`: turns one loosely shaped dataset row into a document whose
 text is a fixed, labelled concatenation of the row's fields and whose
 metadata holds the title and the source link.
 */
module Recipe {
  import opened Wrappers
  import opened PyText

  /** One dataset row. Each field is a string or absent; a missing key and an
      explicit `None` are both `None`. */
  datatype Record = Record(
    name: Option<string>,
    description: Option<string>,
    ingredients: Option<string>,
    steps: Option<string>,
    link: Option<string>)

  /** The metadata of a document: the source link and the title, and nothing
      else. */
  datatype Metadata = Metadata(sourceLink: string, title: string)

  /** A retrievable document: its text and its metadata. */
  datatype Document = Document(content: string, metadata: Metadata)

  /** The four fields written into a document's text, in text order. */
  datatype Fields = Fields(title: string, ingredients: string, steps: string, description: string)

  const TitleLabel: string := "Title: "
  const IngredientsLabel: string := "Ingredients: "
  const StepsLabel: string := "Steps: "
  const DescriptionLabel: string := "Description: "

  /** Python's `value or ""` for a string-or-absent value: a present,
      non-empty string is kept, anything falsy becomes `""`. */
  function OrEmpty(v: Option<string>): (r: string)
    ensures v.Some? ==> r == v.value
    ensures r == "" <==> v.None? || v.value == ""
  {
    v.GetOr("")
  }

  /** `(value or "").strip()`: a field as it is stored in the document. It
      is the given text with its surrounding whitespace removed, and it is
      empty exactly when the field is absent, empty or all whitespace. */
  function Field(v: Option<string>): (r: string)
    ensures IsStripped(r)
    ensures exists i :: PaddedBy(OrEmpty(v), r, i)
    ensures r == "" <==> v.None? || AllWhitespace(v.value)
  {
    StripEmptyIff(OrEmpty(v));
    Strip(OrEmpty(v))
  }

  /** The document text for the given fields: four labelled lines, always in
      the order title, ingredients, steps, description. The text starts with
      the title line, and the four labels add 43 characters whatever the
      fields hold, so the description label is there even when the
      description is empty. */
  function Encode(f: Fields): (r: string)
    ensures TitleLabel + f.title <= r
    ensures |r| == |f.title| + |f.ingredients| + |f.steps| + |f.description| + 43
  {
    TitleLabel + (f.title + ("\n" + (IngredientsLabel + (f.ingredients + ("\n" +
      (StepsLabel + (f.steps + ("\n" + (DescriptionLabel + f.description)))))))))
  }

  /** `recipe_to_doc`. Total on every record: the text holds the normalised
      fields in the fixed labelled order, and the metadata holds the
      normalised name as title and the normalised link as source link (so,
      by `Field`'s contract, each is the record's value without surrounding
      whitespace, and empty exactly when that value is absent or blank). */
  function RecipeToDoc(rec: Record): (d: Document)
    ensures d.content == Encode(Fields(d.metadata.title, Field(rec.ingredients), Field(rec.steps), Field(rec.description)))
    ensures d.metadata.title == Field(rec.name) && d.metadata.sourceLink == Field(rec.link)
    ensures IsStripped(d.metadata.title) && IsStripped(d.metadata.sourceLink)
  {
    var name := Field(rec.name);
    var desc := Field(rec.description);
    var ings := Field(rec.ingredients);
    var steps := Field(rec.steps);
    var link := Field(rec.link);
    Document(Encode(Fields(name, ings, steps, desc)), Metadata(link, name))
  }

  /* ---------------- Reading a document text back ---------------- */

  /** No line break inside the first three fields; the description is the
      last line and may hold anything. */
  predicate LineFree(f: Fields) {
    '\n' !in f.title && '\n' !in f.ingredients && '\n' !in f.steps
  }

  /** The rest of `s` after `prefix`, if `s` starts with it. */
  function After(prefix: string, s: string): (r: Option<string>)
    ensures r.Some? <==> prefix <= s
    ensures r.Some? ==> s == prefix + r.value
  {
    if prefix <= s then Some(s[|prefix|..]) else None
  }

  /** Splits `s` at its first line break. */
  function SplitLine(s: string): (r: Option<(string, string)>)
    ensures r.None? <==> '\n' !in s
    ensures r.Some? ==> s == r.value.0 + ("\n" + r.value.1) && '\n' !in r.value.0
  {
    if |s| == 0 then None
    else if s[0] == '\n' then Some(("", s[1..]))
    else
      match SplitLine(s[1..])
      case None => None
      case Some(p) => Some(([s[0]] + p.0, p.1))
  }

  lemma {:induction false} SplitLineAt(a: string, b: string)
    requires '\n' !in a
    ensures SplitLine(a + ("\n" + b)) == Some((a, b))
  {
    var s := a + ("\n" + b);
    if |a| == 0 {
      assert s == "\n" + b;
      assert s[0] == '\n' && s[1..] == b;
    } else {
      assert s[0] == a[0] && a[0] != '\n';
      assert s[1..] == a[1..] + ("\n" + b);
      SplitLineAt(a[1..], b);
      assert SplitLine(s) == Some(([a[0]] + a[1..], b));
      assert [a[0]] + a[1..] == a;
    }
  }

  /** Reads the four fields back from a document text. */
  function DecodeContent(c: string): (r: Option<Fields>)
    ensures r.Some? ==> Encode(r.value) == c && LineFree(r.value)
  {
    var c1 :- After(TitleLabel, c);
    var p1 :- SplitLine(c1);
    var c2 :- After(IngredientsLabel, p1.1);
    var p2 :- SplitLine(c2);
    var c3 :- After(StepsLabel, p2.1);
    var p3 :- SplitLine(c3);
    var desc :- After(DescriptionLabel, p3.1);
    var f := Fields(p1.0, p2.0, p3.0, desc);
    Some(f)
  }

  /** Decoding inverts encoding for every line-free set of fields. */
  lemma DecodeEncode(f: Fields)
    requires LineFree(f)
    ensures DecodeContent(Encode(f)) == Some(f)
  {
    var c3 := StepsLabel + (f.steps + ("\n" + (DescriptionLabel + f.description)));
    var c2 := IngredientsLabel + (f.ingredients + ("\n" + c3));
    var c1 := f.title + ("\n" + c2);
    assert After(TitleLabel, Encode(f)) == Some(c1);
    SplitLineAt(f.title, c2);
    assert After(IngredientsLabel, c2) == Some(f.ingredients + ("\n" + c3));
    SplitLineAt(f.ingredients, c3);
    assert After(StepsLabel, c3) == Some(f.steps + ("\n" + (DescriptionLabel + f.description)));
    SplitLineAt(f.steps, DescriptionLabel + f.description);
    assert After(DescriptionLabel, DescriptionLabel + f.description) == Some(f.description);
  }

  /** The text of a recipe's document reads back as the record's stripped
      fields in the fixed order, with the metadata title as its title line,
      whenever name, ingredients and steps hold no line break. The
      description line is there even when the description is empty. */
  lemma RecipeToDocRoundTrip(rec: Record)
    requires '\n' !in Field(rec.name) && '\n' !in Field(rec.ingredients) && '\n' !in Field(rec.steps)
    ensures DecodeContent(RecipeToDoc(rec).content) ==
      Some(Fields(RecipeToDoc(rec).metadata.title, Field(rec.ingredients),
                  Field(rec.steps), Field(rec.description)))
  {
    DecodeEncode(Fields(Field(rec.name), Field(rec.ingredients), Field(rec.steps), Field(rec.description)));
  }

  /** Whitespace around any field of the record, chosen separately for each
      field, does not change its document. */
  lemma RecipeToDocIgnoresPadding(rec: Record,
      namePad: (string, string), descPad: (string, string), ingsPad: (string, string),
      stepsPad: (string, string), linkPad: (string, string))
    requires AllWhitespace(namePad.0) && AllWhitespace(namePad.1)
    requires AllWhitespace(descPad.0) && AllWhitespace(descPad.1)
    requires AllWhitespace(ingsPad.0) && AllWhitespace(ingsPad.1)
    requires AllWhitespace(stepsPad.0) && AllWhitespace(stepsPad.1)
    requires AllWhitespace(linkPad.0) && AllWhitespace(linkPad.1)
    ensures RecipeToDoc(rec) == RecipeToDoc(Record(
      Some(namePad.0 + OrEmpty(rec.name) + namePad.1),
      Some(descPad.0 + OrEmpty(rec.description) + descPad.1),
      Some(ingsPad.0 + OrEmpty(rec.ingredients) + ingsPad.1),
      Some(stepsPad.0 + OrEmpty(rec.steps) + stepsPad.1),
      Some(linkPad.0 + OrEmpty(rec.link) + linkPad.1)))
  {
    StripIgnoresPadding(namePad.0, OrEmpty(rec.name), namePad.1);
    StripIgnoresPadding(descPad.0, OrEmpty(rec.description), descPad.1);
    StripIgnoresPadding(ingsPad.0, OrEmpty(rec.ingredients), ingsPad.1);
    StripIgnoresPadding(stepsPad.0, OrEmpty(rec.steps), stepsPad.1);
    StripIgnoresPadding(linkPad.0, OrEmpty(rec.link), linkPad.1);
  }

  /** Normalising a record's fields first changes nothing: `RecipeToDoc` of
      the already-stripped fields is the same document. */
  lemma RecipeToDocIdempotent(rec: Record)
    ensures RecipeToDoc(rec) == RecipeToDoc(Record(
      Some(Field(rec.name)), Some(Field(rec.description)), Some(Field(rec.ingredients)),
      Some(Field(rec.steps)), Some(Field(rec.link))))
  {
    StripIdempotent(OrEmpty(rec.name));
    StripIdempotent(OrEmpty(rec.description));
    StripIdempotent(OrEmpty(rec.ingredients));
    StripIdempotent(OrEmpty(rec.steps));
    StripIdempotent(OrEmpty(rec.link));
  }
}

=== FILE: wrappers.dfy ===
/** `Option` stands for a Python value that may be missing: a dictionary key
    that is not there, or an explicit `None`. */
module Wrappers {

  datatype Option<+T> = None | Some(value: T) {

    /** `:-` stops at a missing value. */
    predicate IsFailure() {
      None?
    }

    /** A missing value stays missing whatever type the caller expects. */
    function PropagateFailure<U>(): Option<U>
      requires None?
    {
      None
    }

    /** The value that `:-` passes on when it is present. */
    function Extract(): T
      requires Some?
    {
      value
    }

    /** The value when present, `default` when missing. */
    function GetOr(default: T): T {
      match this
      case Some(v) => v
      case None => default
    }
  }
}
